=== FILE: README.md ===
# go-netsniffer capture pipeline, modelled in Dafny

go-netsniffer is a desktop packet sniffer and intercepting HTTP(S) proxy. Two producers feed one consumer:

- **Capture producer.** It turns each link-layer frame into an `IPPacket` record.
- **Interception producer.** Its callbacks are `ModifyRequest` and `ModifyResponse`. It turns each intercepted HTTP message into an `HTTPPacket` record.
- **Dispatcher.** It drains the queue, applies the host filter, emits UI events and appends HTTP records to a log file.
- **Lifecycle controller.** It starts and stops the proxy server and the capture handle.

This project models that core as pure functions over immutable datatypes and proves properties about them.

| file | module | models |
|---|---|---|
| `wrappers.dfy` | `Wrappers` | `Option` for nil pointers, `Result` for `error` returns |
| `gotext.dfy` | `GoText` | Go integer widths, `[]byte` and string conversion, `strings.HasPrefix`, `strings.Contains` |
| `seqs.dfy` | `Seqs` | the reference definitions `Filter`, `Map` and `Flatten`, with append lemmas |
| `packet.dfy` | `Packets` | `models/packet.go`: the records and their integer enumerations |
| `events.dfy` | `Events` | `events/event.go`: `{Type, Code, Message}` |
| `config.dfy` | `AppConfig` | the configuration fields as `app.go` uses them |
| `layers.dfy` | `LayerDecoder` | `printPacketInfo`, which folds over a frame's layers, and the capture goroutine |
| `request_logger.dfy` | `RequestLogger` | `ModifyRequest` and `ModifyResponse` |
| `dispatcher.dfy` | `Dispatcher` | the `RunLoop` body as a step function, and the loop as a fold |
| `lifecycle.dfy` | `Lifecycle` | `StartProxy`, `StopProxy`, `StartIPCapture`, `StopIPCapture` and the goroutine endings |

Inputs the model cannot compute are parameters:

- the clock, as the timestamp strings;
- the decompressors and `json.Marshal`, as functions returning `Ok(bytes)` or `Err(text)`;
- `proxy.New`, `pcap.OpenLive`, `SetBPFFilter` and `proxy.DisableProxy`, as their success or error results;
- the way the serve goroutine ends (`ServeExit`): `net.Listen` failing, `proxy.EnableProxy` failing, `serve.Serve` returning an error, or `serve.Serve` returning normally.

The queue is a sequence, and the dispatcher is a sequential fold over it.

The model keeps these behaviours of the code:

- `StartIPCapture` never rejects a second start. It replaces the held handle without closing it.
- `StartProxy` never sets `HTTP.Status` to running, and neither does any other start, stop or goroutine ending.
- `StopProxy` can fail on `DisableProxy` before it looks at `serve`.
- Packet tags are plain integers, so a `Packet` is not a strict union: both records are always present.
- Only HTTP records are logged. ARP and ICMPv4 layers produce nothing.

## Model

| member | source | states |
|---|---|---|
| GoText.HasPrefix | proxy/handler/request_logger.go:99 | `strings.HasPrefix` holds exactly when the text is the prefix followed by some (possibly empty) rest, which is the `text/` test of the content-type gate |
| GoText.FromBytes | proxy/handler/request_logger.go:67 | converting the body bytes to a string loses nothing: converting the string back gives the same bytes |
| GoText.Contains | app.go:77 | `strings.Contains` holds exactly when the filter occurs somewhere in the host as a contiguous, case-sensitive substring; the empty string occurs in every string |
| Packets.ZeroPacket | models/packet.go:10-26 | a zero-valued packet has the HTTP tag, request direction and TCP kind, because every enumeration starts at 0 |
| Packets.HeaderGet | proxy/handler/request_logger.go:90-97 | `Header.Get` gives the first value stored under the name, or the empty string when the name is absent or has no values; this is how the content type and content encoding are read |
| LayerDecoder.ApplyLayer | app.go:351-516 | each layer kind assigns exactly the fields in the assignment table (Ethernet: MACs, ethertype, payload; IPv4/IPv6: version 4/6, addresses, protocol or next header, payload; TCP: kind, seq, ports, payload; UDP: kind, ports, payload); every other field is left as it was |
| LayerDecoder.FoldLayers | app.go:349-521 | the layer loop never touches the timestamp, `Length` or the application fields |
| LayerDecoder.LastWriteWins | app.go:349-521 | after the loop, each field holds the value stored by the last layer that assigns it, or its value before the loop if no layer does |
| LayerDecoder.PrintPacketInfo | app.go:342-544 | the record equals the zero record updated by the last write to each field; it is stamped with the capture time; `Length` stays 0; the application name and payload are set if and only if an application layer is present, else they stay empty |
| LayerDecoder.EthernetLastWins | app.go:352-365 | the last Ethernet layer decides both MACs, the ethertype and the Ethernet payload |
| LayerDecoder.NetworkLastWins | app.go:384-431 | the last IPv4 or IPv6 layer decides the version (4 or 6), both addresses, the protocol (IPv6 uses its next header) and the IP payload |
| LayerDecoder.TransportLastWins | app.go:432-479 | the last TCP or UDP layer decides the transport kind and both ports |
| LayerDecoder.TcpSeqLastWins | app.go:441-445 | the sequence number and TCP payload come from the last TCP layer, even when a UDP layer follows it |
| LayerDecoder.TransportGroupsUntouched | app.go:469-479 | a frame without TCP leaves the sequence number and TCP payload unchanged; a frame without UDP leaves the UDP payload unchanged |
| LayerDecoder.IgnoredLayersChangeNothing | app.go:480-516 | ICMPv4, ARP and unrecognised layers change no field |
| LayerDecoder.NoTransportReadsAsTcp | models/packet.go:49-52 | a frame without a transport layer gives a record that reads as TCP, with zero ports and sequence number |
| LayerDecoder.CaptureLoop | app.go:315-325 | the capture goroutine queues one IP-tagged packet per frame, in frame order, each carrying the record built from that frame |
| RequestLogger.ModifyRequest | proxy/handler/request_logger.go:45-72 | pushes exactly one HTTP-tagged request record that copies protocol, method, host, path, URL, header and content length; a zero length gives `[no data]` without reading the body; otherwise the body text is the bytes the read returned (a read error is dropped, keeping the bytes read before it), and the request is passed on with a complete body of exactly those bytes |
| RequestLogger.IsBinaryMeaning | proxy/handler/request_logger.go:99 | a body is decoded exactly when the content type is non-empty and either is `text/` followed by some (possibly empty) rest or contains `json` somewhere |
| RequestLogger.Restored | proxy/handler/request_logger.go:64-66 | the body put back on the message after it has been read holds exactly the bytes that were read, and can be read to its end |
| RequestLogger.DecodeBody | proxy/handler/request_logger.go:109-146 | any `Content-Encoding` other than exactly `zstd`, `gzip` or `br` (including empty or differently-cased values) gives the raw bytes as text |
| RequestLogger.DecodeFailureShowsError | proxy/handler/request_logger.go:109-142 | when the chosen decompressor fails, the body is exactly its error text |
| RequestLogger.DecodeRoundTrip | proxy/handler/request_logger.go:109-146 | when a decompressor undoes the matching compressor, the body of the compressed bytes is the original payload as text |
| RequestLogger.ModifyResponse | proxy/handler/request_logger.go:75-151 | builds a response record from the request's method, host, path and URL, plus the response's status, status code and content type. A zero length gives `[no data]`, no gate and a push. A gated type gives `[binary data]` followed by the type; it is emitted directly as `Packet`, not pushed, and the body is not read. Otherwise the body is read (a read error is dropped, keeping the bytes read before it), decoded by encoding, and pushed; the response is then passed on with a complete body of exactly the bytes read, and is unchanged when the body was not read |
| AppConfig.DefaultConfig | app.go:43-56 | the start-up settings have both subsystems stopped, logging off, no host filter, automatic system-proxy setting on, proxy port 9000, promiscuous capture and the capture filter `tcp and port 80` |
| Dispatcher.Route | app.go:74-98 | drops a packet exactly when it is HTTP, the filter is set and the host does not contain the filter. HTTP goes out as `HTTPPacket` with the HTTP record; IP as `IPPacket` with the IP record and is never dropped; any other tag as `Packet` with the whole packet. The record plus two newlines is appended only for an emitted HTTP packet, with `SaveLogFile` on, that serialized; a serialization failure still emits the event |
| Dispatcher.RouteMatchesReference | app.go:74-98 | one iteration emits an event exactly when the packet survives the host filter, and that event is the one its tag selects; it writes bytes exactly when the packet's log entry is non-empty, and then writes that entry |
| Dispatcher.Dispatch | app.go:73-99 | the events are the events of the packets that pass the filter, in queue order; the log is every packet's entry in queue order |
| Dispatcher.DispatchAppend | app.go:73-99 | dispatching two queued runs back to back gives the first run's events and log, followed by the second's |
| Dispatcher.EmptyFilterEmitsAll | app.go:76-82 | with an empty filter, every packet gives exactly one event, in queue order |
| Dispatcher.NoLogWithoutSave | app.go:83-92 | without `SaveLogFile` nothing is written to the log |
| Dispatcher.IpPacketsPassUnlogged | app.go:93-94 | a queue of IP packets is emitted in full and in order as `IPPacket` events, and nothing is logged |
| Dispatcher.CaptureReachesUi | app.go:315-323 | captured frames reach the UI as one `IPPacket` event each, in capture order, carrying their decoded records, and are never logged |
| Dispatcher.ZeroPacketRoutedAsHttp | models/packet.go:10-13 | with no filter, a zero-valued packet is emitted as an `HTTPPacket` event |
| Lifecycle.NewApp | app.go:41-58 | a new application holds no server and no handle, carries exactly the start-up settings, and satisfies the lifecycle invariants |
| Lifecycle.StartProxy | app.go:205-246 | with a server already held: code 1, nothing changes. If construction fails: code 1 with the error text, nothing changes. Otherwise the new server is held, nothing is reported, and the configuration (`Status` included) is unchanged |
| Lifecycle.StopProxy | app.go:248-265 | with `AutoProxy` on and a failing `DisableProxy`: code 1, and `serve` is not looked at. Otherwise a held server is closed and cleared, with `HTTP.Status` set to 0. If no server is held: code 1 "already stopped". The effects are exactly the system-proxy disable (when `AutoProxy` is on), followed by closing the held server if there is one |
| Lifecycle.StartIPCapture | app.go:295-326 | the device is recorded even on failure. An open failure, or a filter failure (which closes the new handle), gives code 2 and leaves the handle and status alone. Success sets status 1 and makes the new handle the held one |
| Lifecycle.StopIPCapture | app.go:328-340 | with no handle: code 2, nothing changes. Otherwise the handle is closed and cleared and `IP.Status` becomes 0 |
| Lifecycle.CaptureEnded | app.go:324 | when the packet source runs dry, the capture status becomes 0; the handle stays recorded, nothing else changes and nothing is released |
| Lifecycle.ServeExited | app.go:218-242 | a failing listen, a failing system-proxy enable and a failing `Serve` are each emitted with code 1; only a failed `Serve` clears the server and resets `HTTP.Status`, and nothing else changes; a nil return from `Serve` reports and changes nothing; no ending releases anything |
| Lifecycle.ApplyPreserves | app.go:205-340 | no modelled transition lets the capture status read running without a handle, or sets the proxy status to anything but 0 |
| Lifecycle.RunPreserves | app.go:205-340 | over any run of the modelled transitions (starts, stops and goroutine endings), the capture status reads running only while a handle is held, and the proxy status is never raised; replacing the whole configuration is not one of them |
| Lifecycle.StartProxyTwice | app.go:209-217 | once a server is held, a second start is rejected with code 1 and changes nothing |
| Lifecycle.StopIPCaptureTwice | app.go:332-339 | a second capture stop reports code 2 and changes nothing |
| Lifecycle.SecondCaptureStartDropsHandle | app.go:295-312 | a second successful capture start replaces the held handle without closing it |

## Left out

- Printing, logging, hex dumps (`ByteArrTo16`) and the ICMPv4/ARP diagnostic output: they are side effects with no content to check.
- `packet.ErrorLayer()` reporting: it only prints.
- The `DateTime` fields of both records: the program never assigns them.
- Timestamps are taken as given strings; `time.Now` formatting is not modelled.
- The real gzip, Brotli and zstd decompressors: they are foreign library code, modelled as functions that may fail. Compression round trips are assumed as a hypothesis (`DecodeRoundTrip`), not proved.
- `json.Marshal`: modelled as a function that may fail; its output format is not modelled.
- Goroutines, the lock, and the buffered channel of capacity 1000: the queue is a sequence, the dispatcher a sequential fold, and each locked operation one atomic transition. The two goroutines' writes (the serve goroutine's `a.serve = nil` and `HTTP.Status = 0` at app.go:237-238, and the capture goroutine's `IP.Status = 0` at app.go:324) are modelled as atomic transitions (`ServeExited`, `CaptureEnded`). They run without `a.lock`, and their races with the locked operations are not modelled. For example, `a.serve = nil` could land between `StopProxy`'s nil check (app.go:257) and its `a.serve.Close()` (app.go:259). Backpressure is not modelled either.
- Opening the log file: `RunLoop` opens it once when it starts, named after that day's date, and a failed open ends the process through `log.Fatal`. This is file I/O and is not modelled. The model gives the bytes the loop writes to the open file.
- Listener bookkeeping in the serve goroutine (`l.Close()`): the listener is not part of the state.
- `shutdown`, `GetConfig`, `EnableProxy`, `DisableProxy`, `GenerateCert`, `InstallCert`, `UninstallCert`, `GetDevices`, `Test`: configuration saving, OS proxy toggling, certificate handling and device enumeration. Only the results of `proxy.New`, of `proxy.DisableProxy` in `StopProxy`, and of `net.Listen`, `proxy.EnableProxy` and `serve.Serve` in the serve goroutine (as `ServeExit`) enter the model.
- Lifecycle.RunPreserves: `SetConfig` (app.go:146-156) and `startup` (app.go:102-114) replace the whole configuration, `HTTP.Status` and `IP.Status` included. They are not commands of the lifecycle model. So the invariant holds only over the modelled starts, stops and goroutine endings. For example, a stale configuration set after a capture stop gives `IP.Status = 1` with no handle.
- Dispatcher.Dispatch: `RunLoop` reads `FilterHost` and `SaveLogFile` afresh for every packet (app.go:76, app.go:83). The fold fixes one configuration for the whole run, so a configuration change part-way through a run is not modelled. The errors from `file.Write` and `file.WriteString` (app.go:90-91) are discarded, so a failed or short write drops bytes while the loop carries on; `Trace.log` is the bytes the loop writes, not what the file ends up holding.
- RequestLogger.ModifyRequest: the record shares the request's live header map (proxy/handler/request_logger.go:58). Header edits made after the callback would show in the queued record. The model copies the header as a value, so it does not promise anything about such later edits.
- RequestLogger.ModifyResponse: likewise, the record shares the response's live header map (proxy/handler/request_logger.go:87), and the model copies it as a value.
- `models/config.go`: it is out of date with `app.go` (`TCP` instead of `IP`). The configuration follows `app.go`'s usage.
- Rendering of MAC and IP addresses: layers carry the text their `String()` methods give.
- Header name canonicalization in `Header.Get`: headers are assumed to be stored under canonical names, as `net/http` does when it parses messages.
- Go strings are byte strings. Here a string is `seq<char>`, and text built from bytes has one character per byte.
- A nil `resp.Request` would make the Go code panic. The model always has one.

=== FILE: config.dfy ===
/** The application settings as app.go reads and writes them: the HTTP
    (proxy) side and the IP (capture) side. The Go type documents three `Status`
    values (0 not started, 1 starting, 2 started), but the application only
    ever writes 0 and 1: the capture side is set to 1 once its handle is
    held and back to 0 when capture stops; the proxy side is only ever
    reset to 0. */
module AppConfig {

  datatype HttpConfig = HttpConfig(
    status: int,
    port: int,
    autoProxy: bool,
    saveLogFile: bool,
    filterHost: string)

  datatype IpConfig = IpConfig(
    status: int,
    device: string,
    snaplen: int,
    promisc: bool,
    timeoutMillis: int,
    filter: string)

  datatype Config = Config(http: HttpConfig, ip: IpConfig)

  /** The settings `NewApp` starts from (app.go:44-56), before any saved
      configuration is loaded over them. */
  function DefaultConfig(): (c: Config)
    ensures c.http.status == 0 && c.ip.status == 0
    ensures !c.http.saveLogFile && c.http.filterHost == ""
    ensures c.http.autoProxy && c.http.port == 9000
    ensures c.ip.promisc && c.ip.filter == "tcp and port 80"
  {
    Config(
      HttpConfig(0, 9000, true, false, ""),
      IpConfig(0, "", 1024, true, 1000, "tcp and port 80"))
  }
}

=== FILE: dispatcher.dfy ===
/** The single consumer (`RunLoop` in app.go:64-100): it takes packets off
    the queue in order, drops HTTP packets whose host does not contain the
    configured filter, emits the rest to the UI under a name chosen by the
    packet's tag, and appends each emitted HTTP record to the log file when
    logging is on. The queue is a sequence and the loop a fold over it; the
    JSON serializer is passed in as a function that may fail. */
module Dispatcher {
  import opened Wrappers
  import opened GoText
  import opened Packets
  import opened Seqs
  import opened AppConfig
  import LayerDecoder

  /** What an event carries: the HTTP record, the IP record, or the whole
      packet for any other tag. */
  datatype Payload = HttpPayload(http: HTTPPacket) | IpPayload(ip: IPPacket) | PacketPayload(packet: Packet)

  /** A UI event: its name and payload. */
  datatype UiEvent = UiEvent(name: string, payload: Payload)

  /** What one iteration does: the event it emits and the bytes it writes
      to the log file, if any. */
  datatype Step = Step(event: Option<UiEvent>, append: Option<Bytes>)

  /** What the whole loop does: all events and the bytes the loop writes to
      the log file, in order. */
  datatype Trace = Trace(events: seq<UiEvent>, log: Bytes)

  /** The record separator written after each log entry: two newlines. */
  const Separator: Bytes := [10, 10]

  /** One iteration of the loop body (app.go:74-98). */
  function Route(cfg: HttpConfig, p: Packet, marshal: HTTPPacket -> Result<Bytes>): (s: Step)
    // host filter: only HTTP packets are dropped, exactly when the filter is
    // set and their host does not contain it
    ensures s.event.None? <==>
      p.packetType == PacketTypeHTTP && cfg.filterHost != "" && !IsSubstring(cfg.filterHost, p.http.host)
    // event naming by tag
    ensures s.event.Some? && p.packetType == PacketTypeHTTP ==>
      s.event.value == UiEvent("HTTPPacket", HttpPayload(p.http))
    ensures p.packetType == PacketTypeIP ==> s.event == Some(UiEvent("IPPacket", IpPayload(p.ip)))
    ensures p.packetType !in {PacketTypeHTTP, PacketTypeIP} ==>
      s.event == Some(UiEvent("Packet", PacketPayload(p)))
    // log append: emitted HTTP packets only, when logging is on and the
    // record serializes; a serialization failure still emits the event
    ensures s.append.Some? <==>
      p.packetType == PacketTypeHTTP && s.event.Some? && cfg.saveLogFile && marshal(p.http).Ok?
    ensures s.append.Some? ==> s.append.value == marshal(p.http).value + Separator
  {
    if p.packetType == PacketTypeHTTP then
      if cfg.filterHost != "" && !Contains(p.http.host, cfg.filterHost) then
        Step(None, None)
      else
        var event := Some(UiEvent("HTTPPacket", HttpPayload(p.http)));
        if cfg.saveLogFile then
          match marshal(p.http)
          case Err(_) => Step(event, None)
          case Ok(b) => Step(event, Some(b + Separator))
        else
          Step(event, None)
    else if p.packetType == PacketTypeIP then
      Step(Some(UiEvent("IPPacket", IpPayload(p.ip))), None)
    else
      Step(Some(UiEvent("Packet", PacketPayload(p))), None)
  }

  /** Reference: a packet survives the host filter. */
  predicate Kept(cfg: HttpConfig, p: Packet) {
    !(p.packetType == PacketTypeHTTP && cfg.filterHost != "" && !Contains(p.http.host, cfg.filterHost))
  }

  /** Reference: the event a surviving packet is emitted as. */
  function EventFor(p: Packet): UiEvent {
    if p.packetType == PacketTypeHTTP then UiEvent("HTTPPacket", HttpPayload(p.http))
    else if p.packetType == PacketTypeIP then UiEvent("IPPacket", IpPayload(p.ip))
    else UiEvent("Packet", PacketPayload(p))
  }

  /** Reference: the bytes a packet adds to the log file. */
  function LogEntry(cfg: HttpConfig, marshal: HTTPPacket -> Result<Bytes>, p: Packet): Bytes {
    if p.packetType == PacketTypeHTTP && Kept(cfg, p) && cfg.saveLogFile && marshal(p.http).Ok? then
      marshal(p.http).value + Separator
    else
      []
  }

  /** One step agrees with the references: a packet is emitted exactly
      when it is kept, as `EventFor` says, and the bytes it writes are its
      `LogEntry`. */
  lemma RouteMatchesReference(cfg: HttpConfig, p: Packet, marshal: HTTPPacket -> Result<Bytes>)
    ensures Route(cfg, p, marshal).event == (if Kept(cfg, p) then Some(EventFor(p)) else None)
    ensures Route(cfg, p, marshal).append == (if LogEntry(cfg, marshal, p) == [] then None else Some(LogEntry(cfg, marshal, p)))
  {
  }

  /** The loop over the queue (app.go:73-99): each packet is routed in
      turn and its event and log bytes follow those of earlier packets.
      Equivalently, the events are the surviving packets' events in queue
      order, and the log is every packet's entry in queue order. */
  function Dispatch(cfg: HttpConfig, queue: seq<Packet>, marshal: HTTPPacket -> Result<Bytes>): (t: Trace)
    ensures t.events == Map(EventFor, Filter(p => Kept(cfg, p), queue))
    ensures t.log == Flatten(Map(p => LogEntry(cfg, marshal, p), queue))
    decreases |queue|
  {
    if queue == [] then
      Trace([], [])
    else
      var s := Route(cfg, queue[0], marshal);
      var rest := Dispatch(cfg, queue[1..], marshal);
      var events := (if s.event.Some? then [s.event.value] else []) + rest.events;
      var log := (if s.append.Some? then s.append.value else []) + rest.log;
      Trace(events, log)
  }

  /** Order is channel order: dispatching two queued runs back to back is
      dispatching the first, then the second. */
  lemma {:induction false} DispatchAppend(cfg: HttpConfig, a: seq<Packet>, b: seq<Packet>, marshal: HTTPPacket -> Result<Bytes>)
    ensures Dispatch(cfg, a + b, marshal).events == Dispatch(cfg, a, marshal).events + Dispatch(cfg, b, marshal).events
    ensures Dispatch(cfg, a + b, marshal).log == Dispatch(cfg, a, marshal).log + Dispatch(cfg, b, marshal).log
  {
    var keep := p => Kept(cfg, p);
    var entry := p => LogEntry(cfg, marshal, p);
    FilterAppend(keep, a, b);
    MapAppend(EventFor, Filter(keep, a), Filter(keep, b));
    MapAppend(entry, a, b);
    FlattenAppend(Map(entry, a), Map(entry, b));
  }

  /** With an empty filter every packet is emitted, one event per packet,
      in queue order. */
  lemma EmptyFilterEmitsAll(cfg: HttpConfig, queue: seq<Packet>, marshal: HTTPPacket -> Result<Bytes>)
    requires cfg.filterHost == ""
    ensures |Dispatch(cfg, queue, marshal).events| == |queue|
    ensures forall i :: 0 <= i < |queue| ==> Dispatch(cfg, queue, marshal).events[i] == EventFor(queue[i])
  {
    FilterAll(p => Kept(cfg, p), queue);
  }

  /** Without `SaveLogFile` nothing is ever appended to the log. */
  lemma {:induction false} NoLogWithoutSave(cfg: HttpConfig, queue: seq<Packet>, marshal: HTTPPacket -> Result<Bytes>)
    requires !cfg.saveLogFile
    ensures Dispatch(cfg, queue, marshal).log == []
    decreases |queue|
  {
    if queue != [] {
      NoLogWithoutSave(cfg, queue[1..], marshal);
    }
  }

  /** IP packets are never filtered and never logged: a queue of them is
      emitted in full, in order, as `IPPacket` events. */
  lemma {:induction false} IpPacketsPassUnlogged(cfg: HttpConfig, queue: seq<Packet>, marshal: HTTPPacket -> Result<Bytes>)
    requires forall i :: 0 <= i < |queue| ==> queue[i].packetType == PacketTypeIP
    ensures |Dispatch(cfg, queue, marshal).events| == |queue|
    ensures forall i :: 0 <= i < |queue| ==>
      Dispatch(cfg, queue, marshal).events[i] == UiEvent("IPPacket", IpPayload(queue[i].ip))
    ensures Dispatch(cfg, queue, marshal).log == []
    decreases |queue|
  {
    if queue != [] {
      IpPacketsPassUnlogged(cfg, queue[1..], marshal);
    }
  }

  /** End to end for the capture side: the frames read by the capture
      goroutine reach the UI as `IPPacket` events carrying the records
      built from them, one per frame and in capture order, and never reach
      the log file. */
  lemma {:induction false} CaptureReachesUi(cfg: HttpConfig, cs: seq<LayerDecoder.Captured>, marshal: HTTPPacket -> Result<Bytes>)
    ensures |Dispatch(cfg, LayerDecoder.CaptureLoop(cs), marshal).events| == |cs|
    ensures forall i :: 0 <= i < |cs| ==>
      Dispatch(cfg, LayerDecoder.CaptureLoop(cs), marshal).events[i]
        == UiEvent("IPPacket", IpPayload(LayerDecoder.PrintPacketInfo(cs[i].frame, cs[i].at)))
    ensures Dispatch(cfg, LayerDecoder.CaptureLoop(cs), marshal).log == []
  {
    IpPacketsPassUnlogged(cfg, LayerDecoder.CaptureLoop(cs), marshal);
  }

  /** A zero-valued packet carries the HTTP tag, so it is routed as an
      `HTTPPacket` event. */
  lemma ZeroPacketRoutedAsHttp(cfg: HttpConfig, marshal: HTTPPacket -> Result<Bytes>)
    requires cfg.filterHost == ""
    ensures Route(cfg, ZeroPacket(), marshal).event == Some(UiEvent("HTTPPacket", HttpPayload(ZeroHTTP())))
  {
  }
}

=== FILE: events.dfy ===
/** The out-of-band event record returned to, or emitted at, the UI
    (events/event.go). */
module Events {

  type EventType = int
  const General: EventType := 0
  const Error: EventType := 1

  datatype Event = Event(kind: EventType, code: int, message: string)

  /** An error event with the given code and message. */
  function ErrorEvent(code: int, message: string): Event {
    Event(Error, code, message)
  }
}

=== FILE: gotext.dfy ===
/** Go's fixed-width integers, byte slices and the two `strings` functions
    the core relies on. A Go `string` is modelled as `seq<char>`; turning a
    byte slice into a string (`string(rb)`) gives one character per byte. */
module GoText {

  type uint8 = x: int | 0 <= x < 0x100
  type uint16 = x: int | 0 <= x < 0x1_0000
  type uint32 = x: int | 0 <= x < 0x1_0000_0000
  type int64 = x: int | -0x8000_0000_0000_0000 <= x < 0x8000_0000_0000_0000

  /** A Go `[]byte`. */
  type Bytes = seq<uint8>

  /** `string(b)`: the text whose characters are exactly the bytes of `b`. */
  function FromBytes(b: Bytes): (s: string)
    ensures IsByteText(s) && ToBytes(s) == b
  {
    seq(|b|, i requires 0 <= i < |b| => b[i] as char)
  }

  /** True when every character of `s` fits in one byte. */
  predicate IsByteText(s: string) {
    forall i :: 0 <= i < |s| ==> s[i] as int < 0x100
  }

  /** `[]byte(s)` for a string made of byte-sized characters. */
  function ToBytes(s: string): (b: Bytes)
    requires IsByteText(s)
    ensures |b| == |s|
    ensures forall i :: 0 <= i < |s| ==> b[i] == s[i] as int
  {
    seq(|s|, i requires 0 <= i < |s| => s[i] as int)
  }

  /** `sub` occurs in `s` starting at index `i`. */
  ghost predicate OccursAt(s: string, sub: string, i: nat) {
    i + |sub| <= |s| && s[i..i + |sub|] == sub
  }

  /** The specification of a substring test: some position holds `sub`. */
  ghost predicate IsSubstring(sub: string, s: string) {
    exists i: nat :: OccursAt(s, sub, i)
  }

  /** The specification of a prefix: `s` is `prefix` followed by something. */
  ghost predicate IsPrefix(prefix: string, s: string) {
    exists t: string :: s == prefix + t
  }

  /** `strings.HasPrefix(s, prefix)`. */
  function HasPrefix(s: string, prefix: string): (b: bool)
    ensures b <==> IsPrefix(prefix, s)
  {
    if |prefix| <= |s| && s[..|prefix|] == prefix then
      assert s == prefix + s[|prefix|..];
      true
    else
      false
  }

  /** `strings.Contains(s, sub)`: a byte-wise, case-sensitive search that
      slides `sub` along `s`. The empty string is contained in every string. */
  function Contains(s: string, sub: string): (b: bool)
    ensures b <==> IsSubstring(sub, s)
    decreases |s|
  {
    if |sub| > |s| then
      false
    else if s[..|sub|] == sub then
      assert OccursAt(s, sub, 0);
      true
    else
      var rest := Contains(s[1..], sub);
      ShiftOccurrence(s, sub);
      rest
  }

  /** An occurrence in `s` away from the front is an occurrence in `s[1..]`. */
  lemma ShiftOccurrence(s: string, sub: string)
    requires |s| > 0 && !OccursAt(s, sub, 0)
    ensures IsSubstring(sub, s) <==> IsSubstring(sub, s[1..])
  {
    if IsSubstring(sub, s) {
      var i: nat :| OccursAt(s, sub, i);
      assert i > 0;
      assert s[1..][i - 1..i - 1 + |sub|] == s[i..i + |sub|];
      assert OccursAt(s[1..], sub, i - 1);
    }
    if IsSubstring(sub, s[1..]) {
      var j: nat :| OccursAt(s[1..], sub, j);
      assert s[1..][j..j + |sub|] == s[j + 1..j + 1 + |sub|];
      assert OccursAt(s, sub, j + 1);
    }
  }
}

=== FILE: layers.dfy ===
/** The link-layer record builder (`printPacketInfo` in app.go) and the
    capture producer that wraps each built record into a queued packet.
    The capture engine hands over a frame already split into layers; the
    builder is a left fold over those layers, where each recognised layer
    overwrites one field group of the record and every other layer leaves
    it alone. */
module LayerDecoder {
  import opened Wrappers
  import opened GoText
  import opened Packets
  import opened Seqs

  /** One decoded layer of a frame, with the fields the builder reads.
      Addresses are carried as the text their `String()` method renders. */
  datatype Layer =
    | Ethernet(srcMAC: string, dstMAC: string, ethernetType: uint16, payload: Bytes)
    | IPv4(srcIP: string, dstIP: string, protocol: uint8, payload: Bytes)
    | IPv6(srcIP: string, dstIP: string, nextHeader: uint8, payload: Bytes)
    | TCP(srcPort: uint16, dstPort: uint16, seqNum: uint32, payload: Bytes)
    | UDP(srcPort: uint16, dstPort: uint16, payload: Bytes)
    | ICMPv4
    | ARP
    | Other
  {
    predicate IsNetwork() { IPv4? || IPv6? }
    predicate IsTransport() { TCP? || UDP? }
    /** ICMPv4, ARP and unrecognised layers are only printed. */
    predicate IsIgnored() { ICMPv4? || ARP? || Other? }
  }

  /** The application layer the capture engine identified, if any. */
  datatype ApplicationLayer = ApplicationLayer(layerType: string, payload: Bytes)

  /** One captured frame: its layers in order, and its application layer. */
  datatype Frame = Frame(layers: seq<Layer>, application: Option<ApplicationLayer>)

  /** The fields of `IPPacket` that the layers of a frame may assign. */
  datatype Field =
    | KindField | VersionField
    | EtherTypeField | SrcMacField | DstMacField | EtherPayloadField
    | SrcIpField | DstIpField | ProtocolField | IpPayloadField
    | SeqField | SrcPortField | DstPortField | TcpPayloadField | UdpPayloadField

  /** The content of one field, whatever its Go type. */
  datatype Value = Num(n: int) | Str(s: string) | Raw(b: Bytes)

  /** Reads field `f` of a record. */
  function Get(d: IPPacket, f: Field): Value {
    match f
    case KindField => Num(d.ipPacketType)
    case VersionField => Num(d.ipVersion)
    case EtherTypeField => Num(d.ethernetType)
    case SrcMacField => Str(d.srcMAC)
    case DstMacField => Str(d.dstMAC)
    case EtherPayloadField => Raw(d.ethernetPayload)
    case SrcIpField => Str(d.srcIP)
    case DstIpField => Str(d.dstIP)
    case ProtocolField => Num(d.protocol)
    case IpPayloadField => Raw(d.ipPayload)
    case SeqField => Num(d.seqNum)
    case SrcPortField => Num(d.srcPort)
    case DstPortField => Num(d.dstPort)
    case TcpPayloadField => Raw(d.tcpPayload)
    case UdpPayloadField => Raw(d.udpPayload)
  }

  /** The table of assignments: the value layer `l` stores in field `f`, or
      `None` when the case for `l` does not assign `f`. */
  function Written(l: Layer, f: Field): Option<Value> {
    match l
    case Ethernet(src, dst, etherType, p) =>
      (match f
       case SrcMacField => Some(Str(src))
       case DstMacField => Some(Str(dst))
       case EtherTypeField => Some(Num(etherType))
       case EtherPayloadField => Some(Raw(p))
       case _ => None)
    case IPv4(src, dst, protocol, p) => NetworkWritten(4, src, dst, protocol, p, f)
    case IPv6(src, dst, nextHeader, p) => NetworkWritten(6, src, dst, nextHeader, p, f)
    case TCP(srcPort, dstPort, sq, p) =>
      (match f
       case KindField => Some(Num(IPPacketTypeTCP))
       case SeqField => Some(Num(sq))
       case SrcPortField => Some(Num(srcPort))
       case DstPortField => Some(Num(dstPort))
       case TcpPayloadField => Some(Raw(p))
       case _ => None)
    case UDP(srcPort, dstPort, p) =>
      (match f
       case KindField => Some(Num(IPPacketTypeUDP))
       case SrcPortField => Some(Num(srcPort))
       case DstPortField => Some(Num(dstPort))
       case UdpPayloadField => Some(Raw(p))
       case _ => None)
    case _ => None
  }

  /** The network-layer group, shared by IPv4 and IPv6. */
  function NetworkWritten(version: int, src: string, dst: string, protocol: uint8, p: Bytes, f: Field): Option<Value> {
    match f
    case VersionField => Some(Num(version))
    case SrcIpField => Some(Str(src))
    case DstIpField => Some(Str(dst))
    case ProtocolField => Some(Num(protocol))
    case IpPayloadField => Some(Raw(p))
    case _ => None
  }

  /** The fields no layer assigns: the timestamp, `Length` and the
      application group are the same in both records. */
  predicate SameOutsideLayers(d: IPPacket, r: IPPacket) {
    && r.date == d.date
    && r.length == d.length
    && r.applicationLayer == d.applicationLayer
    && r.applicationPayload == d.applicationPayload
  }

  /** One iteration of the layer loop (app.go:351-516). */
  function ApplyLayer(d: IPPacket, l: Layer): (r: IPPacket)
    ensures forall f :: Get(r, f) == Written(l, f).GetOr(Get(d, f))
    ensures SameOutsideLayers(d, r)
  {
    match l
    case Ethernet(src, dst, etherType, p) =>
      d.(srcMAC := src, dstMAC := dst, ethernetType := etherType, ethernetPayload := p)
    case IPv4(src, dst, protocol, p) =>
      d.(ipVersion := 4, srcIP := src, dstIP := dst, protocol := protocol, ipPayload := p)
    case IPv6(src, dst, nextHeader, p) =>
      d.(ipVersion := 6, srcIP := src, dstIP := dst, protocol := nextHeader, ipPayload := p)
    case TCP(srcPort, dstPort, sq, p) =>
      d.(ipPacketType := IPPacketTypeTCP, seqNum := sq, srcPort := srcPort, dstPort := dstPort, tcpPayload := p)
    case UDP(srcPort, dstPort, p) =>
      d.(ipPacketType := IPPacketTypeUDP, srcPort := srcPort, dstPort := dstPort, udpPayload := p)
    case _ => d
  }

  /** The layer loop: a left fold of `ApplyLayer` over the layers in order. */
  function FoldLayers(d: IPPacket, ls: seq<Layer>): (r: IPPacket)
    ensures SameOutsideLayers(d, r)
    decreases |ls|
  {
    if ls == [] then d else FoldLayers(ApplyLayer(d, ls[0]), ls[1..])
  }

  /** The reference for "last write wins": the value the LAST layer that
      assigns `f` stores there, found by scanning from the end. */
  function LastWrite(ls: seq<Layer>, f: Field): Option<Value>
    decreases |ls|
  {
    if ls == [] then None
    else
      match Written(ls[|ls| - 1], f)
      case Some(v) => Some(v)
      case None => LastWrite(ls[..|ls| - 1], f)
  }

  /** Folding one more layer is applying it to the fold of the others. */
  lemma {:induction false} FoldSnoc(d: IPPacket, ls: seq<Layer>, l: Layer)
    ensures FoldLayers(d, ls + [l]) == ApplyLayer(FoldLayers(d, ls), l)
    decreases |ls|
  {
    if ls == [] {
      assert [] + [l] == [l];
    } else {
      assert (ls + [l])[1..] == ls[1..] + [l];
      FoldSnoc(ApplyLayer(d, ls[0]), ls[1..], l);
    }
  }

  /** Last write wins, untouched otherwise: after the loop, each field holds
      what the last layer assigning it stored, or its value before the loop
      when no layer assigns it. */
  lemma {:induction false} LastWriteWins(d: IPPacket, ls: seq<Layer>, f: Field)
    ensures Get(FoldLayers(d, ls), f) == LastWrite(ls, f).GetOr(Get(d, f))
    decreases |ls|
  {
    if ls != [] {
      var init, l := ls[..|ls| - 1], ls[|ls| - 1];
      assert ls == init + [l];
      FoldSnoc(d, init, l);
      LastWriteWins(d, init, f);
    }
  }

  /** `LastWriteWins` for every field at once. */
  lemma LastWriteWinsAll(d: IPPacket, ls: seq<Layer>)
    ensures forall f :: Get(FoldLayers(d, ls), f) == LastWrite(ls, f).GetOr(Get(d, f))
  {
    forall f {
      LastWriteWins(d, ls, f);
    }
  }

  /** If layer `k` assigns `f` and no later layer does, `f` ends up holding
      what layer `k` stored. */
  lemma {:induction false} LastWriteAt(ls: seq<Layer>, k: nat, f: Field)
    requires k < |ls| && Written(ls[k], f).Some?
    requires forall j :: k < j < |ls| ==> Written(ls[j], f).None?
    ensures LastWrite(ls, f) == Written(ls[k], f)
    decreases |ls|
  {
    if k < |ls| - 1 {
      var init := ls[..|ls| - 1];
      assert forall j :: k < j < |init| ==> init[j] == ls[j];
      LastWriteAt(init, k, f);
    }
  }

  /** A field no layer assigns is never written. */
  lemma {:induction false} LastWriteNone(ls: seq<Layer>, f: Field)
    requires forall j :: 0 <= j < |ls| ==> Written(ls[j], f).None?
    ensures LastWrite(ls, f).None?
    decreases |ls|
  {
    if ls != [] {
      var init := ls[..|ls| - 1];
      assert forall j :: 0 <= j < |init| ==> init[j] == ls[j];
      LastWriteNone(init, f);
    }
  }

  /** `printPacketInfo` (app.go:342-544): the layer loop starting from the
      zero record stamped with the capture time, then the application layer
      when the engine found one. */
  function PrintPacketInfo(frame: Frame, now: string): (r: IPPacket)
    ensures forall f :: Get(r, f) == LastWrite(frame.layers, f).GetOr(Get(ZeroIP(), f))
    ensures r.date == now && r.length == 0
    ensures frame.application.Some? ==>
      r.applicationLayer == frame.application.value.layerType
      && r.applicationPayload == frame.application.value.payload
    ensures frame.application.None? ==> r.applicationLayer == "" && r.applicationPayload == []
  {
    var start := ZeroIP().(date := now);
    assert forall f :: Get(start, f) == Get(ZeroIP(), f);
    var d := FoldLayers(start, frame.layers);
    LastWriteWinsAll(start, frame.layers);
    match frame.application
    case None => d
    case Some(app) => d.(applicationLayer := app.layerType, applicationPayload := app.payload)
  }

  /** Field `f` after the loop holds what layer `k` stored, when layer `k`
      assigns `f` and no later layer does. */
  lemma FieldFromLayer(d: IPPacket, ls: seq<Layer>, k: nat, f: Field)
    requires k < |ls| && Written(ls[k], f).Some?
    requires forall j :: k < j < |ls| ==> Written(ls[j], f).None?
    ensures Get(FoldLayers(d, ls), f) == Written(ls[k], f).value
  {
    LastWriteAt(ls, k, f);
    LastWriteWins(d, ls, f);
  }

  /** Field `f` after the loop is unchanged when no layer assigns it. */
  lemma FieldUntouched(d: IPPacket, ls: seq<Layer>, f: Field)
    requires forall j :: 0 <= j < |ls| ==> Written(ls[j], f).None?
    ensures Get(FoldLayers(d, ls), f) == Get(d, f)
  {
    LastWriteNone(ls, f);
    LastWriteWins(d, ls, f);
  }

  /** Ethernet: the last Ethernet layer of the frame sets both MAC
      addresses, the ethertype and the Ethernet payload. */
  lemma EthernetLastWins(d: IPPacket, ls: seq<Layer>, k: nat)
    requires k < |ls| && ls[k].Ethernet?
    requires forall j :: k < j < |ls| ==> !ls[j].Ethernet?
    ensures var r := FoldLayers(d, ls);
      && r.srcMAC == ls[k].srcMAC
      && r.dstMAC == ls[k].dstMAC
      && r.ethernetType == ls[k].ethernetType
      && r.ethernetPayload == ls[k].payload
  {
    FieldFromLayer(d, ls, k, SrcMacField);
    FieldFromLayer(d, ls, k, DstMacField);
    FieldFromLayer(d, ls, k, EtherTypeField);
    FieldFromLayer(d, ls, k, EtherPayloadField);
  }

  /** Network layers: the last IPv4 or IPv6 layer of the frame sets the
      version (4 or 6), both addresses, the protocol (IPv6's next header)
      and the IP payload. */
  lemma NetworkLastWins(d: IPPacket, ls: seq<Layer>, k: nat)
    requires k < |ls| && ls[k].IsNetwork()
    requires forall j :: k < j < |ls| ==> !ls[j].IsNetwork()
    ensures var r := FoldLayers(d, ls);
      && r.ipVersion == (if ls[k].IPv4? then 4 else 6)
      && r.srcIP == ls[k].srcIP
      && r.dstIP == ls[k].dstIP
      && r.protocol == (if ls[k].IPv4? then ls[k].protocol else ls[k].nextHeader)
      && r.ipPayload == ls[k].payload
  {
    FieldFromLayer(d, ls, k, VersionField);
    FieldFromLayer(d, ls, k, SrcIpField);
    FieldFromLayer(d, ls, k, DstIpField);
    FieldFromLayer(d, ls, k, ProtocolField);
    FieldFromLayer(d, ls, k, IpPayloadField);
  }

  /** Transport layers: the last TCP or UDP layer of the frame decides the
      transport kind and both ports. */
  lemma TransportLastWins(d: IPPacket, ls: seq<Layer>, k: nat)
    requires k < |ls| && ls[k].IsTransport()
    requires forall j :: k < j < |ls| ==> !ls[j].IsTransport()
    ensures var r := FoldLayers(d, ls);
      && r.ipPacketType == (if ls[k].TCP? then IPPacketTypeTCP else IPPacketTypeUDP)
      && r.srcPort == ls[k].srcPort
      && r.dstPort == ls[k].dstPort
  {
    FieldFromLayer(d, ls, k, KindField);
    FieldFromLayer(d, ls, k, SrcPortField);
    FieldFromLayer(d, ls, k, DstPortField);
  }

  /** The sequence number and the TCP payload come from the last TCP layer
      only: a later UDP layer does not touch them. */
  lemma TcpSeqLastWins(d: IPPacket, ls: seq<Layer>, k: nat)
    requires k < |ls| && ls[k].TCP?
    requires forall j :: k < j < |ls| ==> !ls[j].TCP?
    ensures var r := FoldLayers(d, ls);
      && r.seqNum == ls[k].seqNum
      && r.tcpPayload == ls[k].payload
  {
    FieldFromLayer(d, ls, k, SeqField);
    FieldFromLayer(d, ls, k, TcpPayloadField);
  }

  /** A frame without a TCP layer leaves the sequence number and the TCP
      payload as they were; one without a UDP layer leaves the UDP payload. */
  lemma TransportGroupsUntouched(d: IPPacket, ls: seq<Layer>)
    ensures (forall j :: 0 <= j < |ls| ==> !ls[j].TCP?) ==>
      FoldLayers(d, ls).seqNum == d.seqNum && FoldLayers(d, ls).tcpPayload == d.tcpPayload
    ensures (forall j :: 0 <= j < |ls| ==> !ls[j].UDP?) ==>
      FoldLayers(d, ls).udpPayload == d.udpPayload
  {
    if forall j :: 0 <= j < |ls| ==> !ls[j].TCP? {
      FieldUntouched(d, ls, SeqField);
      FieldUntouched(d, ls, TcpPayloadField);
    }
    if forall j :: 0 <= j < |ls| ==> !ls[j].UDP? {
      FieldUntouched(d, ls, UdpPayloadField);
    }
  }

  /** ICMPv4, ARP and unrecognised layers change no field of the record. */
  lemma {:induction false} IgnoredLayersChangeNothing(d: IPPacket, ls: seq<Layer>)
    requires forall j :: 0 <= j < |ls| ==> ls[j].IsIgnored()
    ensures FoldLayers(d, ls) == d
    decreases |ls|
  {
    if ls != [] {
      assert ApplyLayer(d, ls[0]) == d;
      IgnoredLayersChangeNothing(d, ls[1..]);
    }
  }

  /** A frame with no TCP or UDP layer yields a record that reads as TCP,
      with zero ports and sequence number, because `IPPacketTypeTCP` is the
      zero value. */
  lemma NoTransportReadsAsTcp(frame: Frame, now: string)
    requires forall j :: 0 <= j < |frame.layers| ==> !frame.layers[j].IsTransport()
    ensures var r := PrintPacketInfo(frame, now);
      r.ipPacketType == IPPacketTypeTCP && r.srcPort == 0 && r.dstPort == 0 && r.seqNum == 0
  {
    var r := PrintPacketInfo(frame, now);
    LastWriteNone(frame.layers, KindField);
    LastWriteNone(frame.layers, SrcPortField);
    LastWriteNone(frame.layers, DstPortField);
    LastWriteNone(frame.layers, SeqField);
    assert Get(r, KindField) == Num(0);
    assert Get(r, SrcPortField) == Num(0);
    assert Get(r, DstPortField) == Num(0);
    assert Get(r, SeqField) == Num(0);
  }

  /** A frame together with the time it was read. */
  datatype Captured = Captured(frame: Frame, at: string)

  /** The packet the capture goroutine queues for one frame (app.go:318-322). */
  function CapturePacket(c: Captured): Packet {
    Packet(PacketTypeIP, ZeroHTTP(), PrintPacketInfo(c.frame, c.at))
  }

  /** The capture goroutine (app.go:315-325): one IP-tagged packet per frame,
      in the order the frames were read. */
  function CaptureLoop(cs: seq<Captured>): (ps: seq<Packet>)
    ensures |ps| == |cs|
    ensures forall i :: 0 <= i < |cs| ==>
      ps[i].packetType == PacketTypeIP && ps[i].http == ZeroHTTP() &&
      ps[i].ip == PrintPacketInfo(cs[i].frame, cs[i].at)
  {
    Map(CapturePacket, cs)
  }
}

=== FILE: lifecycle.dfy ===
/** The start/stop state machine of app.go: the proxy server reference
    `serve`, the capture handle `tcphandle`, and the two `Status` fields of
    the configuration. Every operation runs under the application lock, so
    each is one atomic transition here. What the environment decides (the
    proxy is built or not, the device opens or not, the filter compiles or
    not, the system-proxy toggle fails or not) is an input of the
    transition. The transitions report the error event they return or emit
    and the resources they release. */
module Lifecycle {
  import opened Wrappers
  import opened AppConfig
  import opened Events

  /** A `*martian.Proxy` and a `*pcap.Handle`, by identity. */
  type ServerId = nat
  type HandleId = nat

  /** The lifecycle part of the `App` struct. */
  datatype App = App(config: Config, serve: Option<ServerId>, tcphandle: Option<HandleId>)

  /** An outside effect of a transition. */
  datatype Effect =
    | ClosedServer(server: ServerId)
    | ClosedHandle(handle: HandleId)
    | DisabledSystemProxy

  /** The new state, the error event (if any) and the effects, in order.
      `StartProxy`, `StopProxy` and `StopIPCapture` return their event to
      the caller; `StartIPCapture` (through `FireErrorEvent`) and the serve
      goroutine emit theirs to the UI's error channel instead. */
  datatype Transition = Transition(app: App, event: Option<Event>, effects: seq<Effect>)

  const ProxyAlreadyStarted: string := "代理服务已经启动"
  const ProxyAlreadyStopped: string := "代理服务已经停止"
  const ProxyStartFailed: string := "启动代理失败: "
  const CaptureOpenFailed: string := "数据抓包开启失败: "
  const CaptureFilterFailed: string := "数据过滤条件设置失败: "
  const CaptureAlreadyStopped: string := "数据抓包已经停止"

  /** `NewApp` (app.go:41-62): default settings, nothing running. */
  function NewApp(): (app: App)
    ensures app.serve.None? && app.tcphandle.None?
    ensures CaptureConsistent(app) && app.config == DefaultConfig()
  {
    App(DefaultConfig(), None, None)
  }

  /** The capture side's `Status` is only running while a handle is held. */
  predicate CaptureConsistent(app: App) {
    app.config.ip.status != 0 ==> app.tcphandle.Some?
  }

  /** `StartProxy` (app.go:205-246). `created` is what `proxy.New` returned.
      The listener is started asynchronously, see `ServeExited`; note that
      `Status` is left as it was. */
  function StartProxy(app: App, created: Result<ServerId>): (t: Transition)
    // a second start is rejected with code 1 and changes nothing
    ensures app.serve.Some? ==>
      t.app == app && t.event == Some(ErrorEvent(1, ProxyAlreadyStarted))
    // a construction failure is reported with code 1 and changes nothing
    ensures app.serve.None? && created.Err? ==>
      t.app == app && t.event == Some(ErrorEvent(1, created.message))
    // success records the new server and reports nothing
    ensures app.serve.None? && created.Ok? ==>
      t.app == app.(serve := Some(created.value)) && t.event.None?
    ensures t.effects == [] && t.app.config == app.config && t.app.tcphandle == app.tcphandle
  {
    if app.serve.Some? then
      Transition(app, Some(ErrorEvent(1, ProxyAlreadyStarted)), [])
    else
      match created
      case Err(message) => Transition(app, Some(ErrorEvent(1, message)), [])
      case Ok(server) => Transition(app.(serve := Some(server)), None, [])
  }

  /** The effect of the `DisableProxy` call `StopProxy` makes with
      `AutoProxy` on, once that call has succeeded. */
  function SystemProxyOff(app: App): seq<Effect> {
    if app.config.http.autoProxy then [DisabledSystemProxy] else []
  }

  /** `StopProxy` (app.go:248-265). `disableError` is the error
      `proxy.DisableProxy` returns when it is called, which happens only
      with `AutoProxy` on, and before `serve` is looked at. */
  function StopProxy(app: App, disableError: Option<string>): (t: Transition)
    // a failing system-proxy toggle aborts the stop before `serve` is looked at
    ensures app.config.http.autoProxy && disableError.Some? ==>
      t.app == app && t.event == Some(ErrorEvent(1, disableError.value)) && t.effects == []
    ensures !(app.config.http.autoProxy && disableError.Some?) ==>
      && (app.serve.Some? ==>
            && t.app == app.(serve := None, config := app.config.(http := app.config.http.(status := 0)))
            && t.event.None?
            && t.effects == SystemProxyOff(app) + [ClosedServer(app.serve.value)])
      && (app.serve.None? ==>
            && t.app == app && t.event == Some(ErrorEvent(1, ProxyAlreadyStopped))
            && t.effects == SystemProxyOff(app))
    ensures t.app.tcphandle == app.tcphandle && t.app.config.ip == app.config.ip
  {
    if app.config.http.autoProxy && disableError.Some? then
      Transition(app, Some(ErrorEvent(1, disableError.value)), [])
    else
      var disabled := SystemProxyOff(app);
      match app.serve
      case Some(server) =>
        var http := app.config.http.(status := 0);
        Transition(app.(serve := None, config := app.config.(http := http)), None, disabled + [ClosedServer(server)])
      case None =>
        Transition(app, Some(ErrorEvent(1, ProxyAlreadyStopped)), disabled)
  }

  /** `StartIPCapture` (app.go:295-326). `openResult` is what `pcap.OpenLive`
      returned and `filterError` the error `SetBPFFilter` returns. The
      device is recorded before opening; a handle already held is neither
      checked for nor closed. */
  function StartIPCapture(app: App, device: string, openResult: Result<HandleId>, filterError: Option<string>): (t: Transition)
    ensures t.app.config.ip.device == device
    ensures t.app.serve == app.serve && t.app.config.http == app.config.http
    ensures t.app.config.ip.(device := app.config.ip.device, status := app.config.ip.status) == app.config.ip
    // an open failure: code 2, handle and status untouched
    ensures openResult.Err? ==>
      && t.app.tcphandle == app.tcphandle && t.app.config.ip.status == app.config.ip.status
      && t.event == Some(ErrorEvent(2, CaptureOpenFailed + openResult.message)) && t.effects == []
    // a filter failure: code 2, the new handle is closed, handle and status untouched
    ensures openResult.Ok? && filterError.Some? ==>
      && t.app.tcphandle == app.tcphandle && t.app.config.ip.status == app.config.ip.status
      && t.event == Some(ErrorEvent(2, CaptureFilterFailed + filterError.value))
      && t.effects == [ClosedHandle(openResult.value)]
    // success: running, with the new handle in place of any previous one
    ensures openResult.Ok? && filterError.None? ==>
      && t.app.tcphandle == Some(openResult.value) && t.app.config.ip.status == 1
      && t.event.None? && t.effects == []
  {
    var app := app.(config := app.config.(ip := app.config.ip.(device := device)));
    match openResult
    case Err(message) =>
      Transition(app, Some(ErrorEvent(2, CaptureOpenFailed + message)), [])
    case Ok(handle) =>
      if filterError.Some? then
        Transition(app, Some(ErrorEvent(2, CaptureFilterFailed + filterError.value)), [ClosedHandle(handle)])
      else
        var ip := app.config.ip.(status := 1);
        Transition(app.(config := app.config.(ip := ip), tcphandle := Some(handle)), None, [])
  }

  /** `StopIPCapture` (app.go:328-340). */
  function StopIPCapture(app: App): (t: Transition)
    ensures app.tcphandle.None? ==>
      t.app == app && t.event == Some(ErrorEvent(2, CaptureAlreadyStopped)) && t.effects == []
    ensures app.tcphandle.Some? ==>
      && t.app.tcphandle.None? && t.app.config.ip.status == 0 && t.event.None?
      && t.effects == [ClosedHandle(app.tcphandle.value)]
      && t.app.(config := app.config, tcphandle := app.tcphandle) == app
      && t.app.config.ip.(status := app.config.ip.status) == app.config.ip
  {
    match app.tcphandle
    case Some(handle) =>
      var ip := app.config.ip.(status := 0);
      Transition(app.(config := app.config.(ip := ip), tcphandle := None), None, [ClosedHandle(handle)])
    case None =>
      Transition(app, Some(ErrorEvent(2, CaptureAlreadyStopped)), [])
  }

  /** The capture goroutine ran out of packets (app.go:324): the status
      drops to stopped, but the handle stays recorded. */
  function CaptureEnded(app: App): (t: Transition)
    ensures t.app.config.ip.status == 0 && t.app.tcphandle == app.tcphandle && t.event.None?
    // nothing else changes and nothing is released
    ensures t.app == app.(config := app.config.(ip := app.config.ip.(status := 0))) && t.effects == []
  {
    Transition(app.(config := app.config.(ip := app.config.ip.(status := 0))), None, [])
  }

  /** How the asynchronous serve goroutine of `StartProxy` ends. */
  datatype ServeExit =
    | ListenFailed(message: string)    // app.go:221-225
    | EnableFailed(message: string)    // app.go:228-233, only with AutoProxy on
    | ServeFailed(message: string)     // app.go:236-241
    | ServeReturned                    // app.go:236, `Serve` returned nil

  /** The serve goroutine ended: every failing ending is reported with
      code 1, only a failed `Serve` forgets the server and resets `Status`,
      and a nil return from `Serve` does nothing at all. */
  function ServeExited(app: App, exit: ServeExit): (t: Transition)
    ensures exit.ServeReturned? ==> t.event.None?
    ensures !exit.ServeReturned? ==> t.event == Some(ErrorEvent(1, ProxyStartFailed + exit.message))
    ensures exit.ServeFailed? ==>
      t.app == app.(serve := None, config := app.config.(http := app.config.http.(status := 0)))
    ensures !exit.ServeFailed? ==> t.app == app
    ensures t.effects == []
  {
    match exit
    case ServeReturned =>
      Transition(app, None, [])
    case ServeFailed(message) =>
      var http := app.config.http.(status := 0);
      Transition(app.(serve := None, config := app.config.(http := http)), Some(ErrorEvent(1, ProxyStartFailed + message)), [])
    case _ =>
      Transition(app, Some(ErrorEvent(1, ProxyStartFailed + exit.message)), [])
  }

  /** One call into the controller, or one event from its goroutines, with
      what the environment decides for it. */
  datatype Command =
    | StartProxyCmd(created: Result<ServerId>)
    | StopProxyCmd(disableError: Option<string>)
    | StartIPCaptureCmd(device: string, openResult: Result<HandleId>, filterError: Option<string>)
    | StopIPCaptureCmd
    | CaptureEndedCmd
    | ServeExitedCmd(exit: ServeExit)

  function Apply(app: App, c: Command): Transition {
    match c
    case StartProxyCmd(created) => StartProxy(app, created)
    case StopProxyCmd(disableError) => StopProxy(app, disableError)
    case StartIPCaptureCmd(device, openResult, filterError) => StartIPCapture(app, device, openResult, filterError)
    case StopIPCaptureCmd => StopIPCapture(app)
    case CaptureEndedCmd => CaptureEnded(app)
    case ServeExitedCmd(exit) => ServeExited(app, exit)
  }

  /** Every transition keeps `CaptureConsistent`, and none sets the proxy
      side's `Status` to anything but 0. */
  lemma ApplyPreserves(app: App, c: Command)
    ensures CaptureConsistent(app) ==> CaptureConsistent(Apply(app, c).app)
    ensures Apply(app, c).app.config.http.status in {0, app.config.http.status}
  {
  }

  /** The state after a run of commands. */
  function Run(app: App, cs: seq<Command>): App
    decreases |cs|
  {
    if cs == [] then app else Run(Apply(app, cs[0]).app, cs[1..])
  }

  /** Over any run of the modelled commands, the capture status is running
      only while a handle is held, and the proxy status is never raised: no
      start, stop or goroutine ending marks the proxy as running. Replacing
      the whole configuration (`SetConfig`, app.go:147, or loading it in
      `startup`, app.go:109) is not a modelled command and can break both. */
  lemma {:induction false} RunPreserves(app: App, cs: seq<Command>)
    requires CaptureConsistent(app)
    ensures CaptureConsistent(Run(app, cs))
    ensures Run(app, cs).config.http.status in {0, app.config.http.status}
    decreases |cs|
  {
    if cs != [] {
      var next := Apply(app, cs[0]).app;
      ApplyPreserves(app, cs[0]);
      RunPreserves(next, cs[1..]);
    }
  }

  /** Starting the proxy twice: whatever the first start did, once a server
      is held the second is rejected with code 1 and changes nothing. */
  lemma StartProxyTwice(app: App, first: Result<ServerId>, second: Result<ServerId>)
    requires app.serve.Some? || first.Ok?
    ensures var t1 := StartProxy(app, first);
      var t2 := StartProxy(t1.app, second);
      t2.app == t1.app && t2.event == Some(ErrorEvent(1, ProxyAlreadyStarted))
  {
  }

  /** Stopping the capture twice: the second stop reports code 2 and
      changes nothing. */
  lemma StopIPCaptureTwice(app: App)
    ensures var t1 := StopIPCapture(app);
      var t2 := StopIPCapture(t1.app);
      t2.app == t1.app && t2.event == Some(ErrorEvent(2, CaptureAlreadyStopped)) && t2.effects == []
  {
  }

  /** A second successful capture start replaces the handle without
      closing the one already held: no effect of the transition releases
      it, and afterwards no stop can reach it. */
  lemma SecondCaptureStartDropsHandle(app: App, device: string, h: HandleId)
    requires app.tcphandle.Some? && app.tcphandle.value != h
    ensures var t := StartIPCapture(app, device, Ok(h), None);
      && t.event.None?
      && t.app.tcphandle == Some(h)
      && ClosedHandle(app.tcphandle.value) !in t.effects
  {
  }
}

=== FILE: packet.dfy ===
/** The records that travel from the producers through the queue to the
    dispatcher (models/packet.go). Go's integer enumerations are kept as
    integers with named constants, because the dispatcher has a branch for
    tags outside the named ones. */
module Packets {
  import opened GoText

  /** `PacketType`: which of the two side-by-side records consumers read. */
  type PacketType = int
  const PacketTypeHTTP: PacketType := 0
  const PacketTypeIP: PacketType := 1

  /** `HTTPPacketType`: the direction of an intercepted HTTP message. */
  type HTTPPacketType = int
  const HTTPPacketTypeRequest: HTTPPacketType := 0
  const HTTPPacketTypeResponse: HTTPPacketType := 1

  /** `IPPacketType`: the transport protocol of a captured frame. */
  type IPPacketType = int
  const IPPacketTypeTCP: IPPacketType := 0
  const IPPacketTypeUDP: IPPacketType := 1

  /** `http.Header`: canonical header name to its values, in order. */
  type Header = map<string, seq<string>>

  /** `Header.Get(key)` for a canonical key: the first value, or "". */
  function HeaderGet(h: Header, key: string): (v: string)
    ensures v != "" ==> key in h && |h[key]| > 0 && v == h[key][0]
    ensures key in h && |h[key]| > 0 ==> v == h[key][0]
  {
    if key in h && |h[key]| > 0 then h[key][0] else ""
  }

  /** One intercepted request or response. The `DateTime` field, which the
      program never assigns, is left out. */
  datatype HTTPPacket = HTTPPacket(
    date: string,
    httpPacketType: HTTPPacketType,
    proto: string,
    protoMajor: int,
    protoMinor: int,
    httpMethod: string,
    host: string,
    path: string,
    url: string,
    header: Header,
    body: string,
    status: string,
    statusCode: int,
    contentType: string,
    contentLength: int64)

  /** One captured frame, as a best-effort union of field groups: each group
      keeps its zero value unless a layer of the frame assigned it. The
      `DateTime` field, which the program never assigns, is left out. */
  datatype IPPacket = IPPacket(
    date: string,
    ipPacketType: IPPacketType,
    ipVersion: int,
    // Ethernet
    ethernetType: uint16,
    srcMAC: string,
    dstMAC: string,
    length: uint16,
    ethernetPayload: Bytes,
    // IPv4 / IPv6
    srcIP: string,
    dstIP: string,
    protocol: uint8,
    ipPayload: Bytes,
    // TCP / UDP
    seqNum: uint32,
    srcPort: uint16,
    dstPort: uint16,
    tcpPayload: Bytes,
    udpPayload: Bytes,
    // application
    applicationLayer: string,
    applicationPayload: Bytes)

  /** The queued unit: both records side by side, not a union. Only the tag
      decides which one a consumer reads. */
  datatype Packet = Packet(packetType: PacketType, http: HTTPPacket, ip: IPPacket)

  /** Go's zero value of `HTTPPacket`. */
  function ZeroHTTP(): HTTPPacket {
    HTTPPacket("", 0, "", 0, 0, "", "", "", "", map[], "", "", 0, "", 0)
  }

  /** Go's zero value of `IPPacket`. */
  function ZeroIP(): IPPacket {
    IPPacket("", 0, 0, 0, "", "", 0, [], "", "", 0, [], 0, 0, 0, [], [], "", [])
  }

  /** Go's zero value of `Packet`: its tag is `PacketTypeHTTP`, and a zero
      `IPPacket` reads as TCP, because both enumerations start at 0. */
  function ZeroPacket(): (p: Packet)
    ensures p.packetType == PacketTypeHTTP
    ensures p.http.httpPacketType == HTTPPacketTypeRequest
    ensures p.ip.ipPacketType == IPPacketTypeTCP
  {
    Packet(0, ZeroHTTP(), ZeroIP())
  }
}

=== FILE: request_logger.dfy ===
/** The interception producer (proxy/handler/request_logger.go): the two
    callbacks the MITM engine invokes once per request and once per
    response. Each builds an HTTP record and either pushes it onto the
    queue or, for a response gated as binary, emits it straight to the UI.
    The decompressors are library code the model cannot see; they are
    passed in as functions that may fail. Both callbacks always return a
    nil error, so the results below carry none. */
module RequestLogger {
  import opened Wrappers
  import opened GoText
  import opened Packets

  const NoData: string := "[no data]"
  const BinaryData: string := "[binary data]"

  /** A body stream: the bytes `io.ReadAll` gets from it, and whether the
      read reaches the end (`complete`) or stops early with an error that
      the callbacks discard. */
  datatype Body = Body(readable: Bytes, complete: bool)

  /** The stream the callbacks put back after reading (`io.NopCloser` over
      the bytes read): exactly those bytes, now readable to the end. */
  function Restored(b: Body): (r: Body)
    ensures r.complete && r.readable == b.readable
  {
    Body(b.readable, true)
  }

  /** The parts of an `http.Request` the callbacks read. `path` is
      `URL.Path`, `url` is `URL.String()`. The header is a value here,
      where the program shares the live map with the record. */
  datatype Request = Request(
    proto: string,
    protoMajor: int,
    protoMinor: int,
    httpMethod: string,
    host: string,
    path: string,
    url: string,
    header: Header,
    contentLength: int64,
    body: Body)

  /** The parts of an `http.Response` the callback reads, with the request
      it answers. */
  datatype Response = Response(
    proto: string,
    protoMajor: int,
    protoMinor: int,
    status: string,
    statusCode: int,
    header: Header,
    contentLength: int64,
    body: Body,
    request: Request)

  /** Where a built record goes: onto the queue, or straight to the UI as
      an event with the given name. */
  datatype Delivery = Pushed(packet: Packet) | Emitted(name: string, packet: Packet)

  /** What `ModifyRequest` leaves behind: the delivery, the request as the
      proxy forwards it, and whether its body stream was read. */
  datatype RequestOutcome = RequestOutcome(delivery: Delivery, request: Request, bodyRead: bool)

  /** What `ModifyResponse` leaves behind, likewise. */
  datatype ResponseOutcome = ResponseOutcome(delivery: Delivery, response: Response, bodyRead: bool)

  /** The three decompressors (zstd, gzip, Brotli), each returning the
      decompressed bytes or its error text. */
  datatype Decompressors = Decompressors(
    zstd: Bytes -> Result<Bytes>,
    gzip: Bytes -> Result<Bytes>,
    brotli: Bytes -> Result<Bytes>)

  /** `ModifyRequest` (request_logger.go:45-72). */
  function ModifyRequest(req: Request, now: string): (r: RequestOutcome)
    ensures r.delivery.Pushed?
    ensures var h := r.delivery.packet.http;
      && r.delivery.packet.packetType == PacketTypeHTTP
      && r.delivery.packet.ip == ZeroIP()
      && h.httpPacketType == HTTPPacketTypeRequest
      && h.date == now
      && h.proto == req.proto && h.protoMajor == req.protoMajor && h.protoMinor == req.protoMinor
      && h.httpMethod == req.httpMethod && h.host == req.host
      && h.path == req.path && h.url == req.url
      && h.header == req.header && h.contentLength == req.contentLength
      && h.status == "" && h.statusCode == 0 && h.contentType == ""
    // a zero length gives the placeholder and the body is not read
    ensures req.contentLength == 0 ==> r.delivery.packet.http.body == NoData && !r.bodyRead
    // otherwise the body is read (a read error is dropped, keeping the
    // bytes read before it), shown as text, and exactly those bytes are
    // given back as the forwarded body
    ensures req.contentLength != 0 ==>
      && r.bodyRead
      && IsByteText(r.delivery.packet.http.body)
      && ToBytes(r.delivery.packet.http.body) == req.body.readable
      && r.request == req.(body := Restored(req.body))
    ensures req.contentLength == 0 ==> r.request == req
  {
    var h := ZeroHTTP().(
      httpPacketType := HTTPPacketTypeRequest,
      date := now,
      proto := req.proto,
      protoMajor := req.protoMajor,
      protoMinor := req.protoMinor,
      httpMethod := req.httpMethod,
      host := req.host,
      path := req.path,
      url := req.url,
      header := req.header,
      contentLength := req.contentLength);
    if h.contentLength == 0 then
      RequestOutcome(Pushed(Packet(PacketTypeHTTP, h.(body := NoData), ZeroIP())), req, false)
    else
      var rb := req.body.readable;
      RequestOutcome(Pushed(Packet(PacketTypeHTTP, h.(body := FromBytes(rb)), ZeroIP())), req.(body := Restored(req.body)), true)
  }

  /** The content-type gate: a body is decoded only when the content type
      is present and is `text/...` or mentions `json`. */
  predicate IsBinary(contentType: string) {
    contentType == "" || (!HasPrefix(contentType, "text/") && !Contains(contentType, "json"))
  }

  /** The gate, stated with the meaning of the two string tests. */
  lemma IsBinaryMeaning(contentType: string)
    ensures !IsBinary(contentType) <==>
      contentType != "" && (IsPrefix("text/", contentType) || IsSubstring("json", contentType))
  {
  }

  /** The body text for a response that passed the gate
      (request_logger.go:109-146): an exact, case-sensitive match on the
      `Content-Encoding` value picks a decompressor; any failure shows its
      error text; every other value shows the raw bytes. */
  function DecodeBody(encoding: string, raw: Bytes, codecs: Decompressors): (body: string)
    ensures encoding !in {"zstd", "gzip", "br"} ==> IsByteText(body) && ToBytes(body) == raw
  {
    match encoding
    case "zstd" => Shown(codecs.zstd(raw))
    case "gzip" => Shown(codecs.gzip(raw))
    case "br" => Shown(codecs.brotli(raw))
    case _ => FromBytes(raw)
  }

  /** A decompressor's result as body text: the output, or the error text. */
  function Shown(result: Result<Bytes>): string {
    match result
    case Ok(b) => FromBytes(b)
    case Err(message) => message
  }

  /** The codec for a recognised encoding name. */
  function CodecFor(encoding: string, codecs: Decompressors): Bytes -> Result<Bytes>
    requires encoding in {"zstd", "gzip", "br"}
  {
    if encoding == "zstd" then codecs.zstd
    else if encoding == "gzip" then codecs.gzip
    else codecs.brotli
  }

  /** Decoding failures are visible: a recognised encoding whose
      decompressor fails gives exactly the error text as the body. */
  lemma DecodeFailureShowsError(encoding: string, raw: Bytes, codecs: Decompressors)
    requires encoding in {"zstd", "gzip", "br"}
    requires CodecFor(encoding, codecs)(raw).Err?
    ensures DecodeBody(encoding, raw, codecs) == CodecFor(encoding, codecs)(raw).message
  {
  }

  /** Round trip: when the decompressor for a recognised encoding undoes a
      compressor on `p`, the body of the compressed bytes is `p` as text.
      Unrecognised encodings behave as the identity. */
  lemma DecodeRoundTrip(encoding: string, compress: Bytes -> Bytes, p: Bytes, codecs: Decompressors)
    requires encoding in {"zstd", "gzip", "br"} ==> CodecFor(encoding, codecs)(compress(p)) == Ok(p)
    requires encoding !in {"zstd", "gzip", "br"} ==> compress(p) == p
    ensures ToBytes(DecodeBody(encoding, compress(p), codecs)) == p
  {
  }

  /** `ModifyResponse` (request_logger.go:75-151). */
  function ModifyResponse(resp: Response, codecs: Decompressors, now: string): (r: ResponseOutcome)
    ensures var h := r.delivery.packet.http;
      && r.delivery.packet.packetType == PacketTypeHTTP
      && r.delivery.packet.ip == ZeroIP()
      && h.httpPacketType == HTTPPacketTypeResponse
      && h.date == now
      && h.proto == resp.proto && h.protoMajor == resp.protoMajor && h.protoMinor == resp.protoMinor
      && h.httpMethod == resp.request.httpMethod && h.host == resp.request.host
      && h.path == resp.request.path && h.url == resp.request.url
      && h.header == resp.header
      && h.status == resp.status && h.statusCode == resp.statusCode
      && h.contentType == HeaderGet(resp.header, "Content-Type")
      && h.contentLength == resp.contentLength
    // the body stream is given back with the bytes read, or left unread
    ensures r.bodyRead ==> r.response == resp.(body := Restored(resp.body))
    ensures !r.bodyRead ==> r.response == resp
    // empty: placeholder, no gate, no decoding, pushed
    ensures resp.contentLength == 0 ==>
      r.delivery.Pushed? && r.delivery.packet.http.body == NoData && !r.bodyRead
    // gated: placeholder with the content type, emitted directly, unread
    ensures resp.contentLength != 0 && IsBinary(HeaderGet(resp.header, "Content-Type")) ==>
      && r.delivery == Emitted("Packet", r.delivery.packet)
      && r.delivery.packet.http.body == BinaryData + HeaderGet(resp.header, "Content-Type")
      && !r.bodyRead
    // decoded: read, decoded by the encoding, pushed
    ensures resp.contentLength != 0 && !IsBinary(HeaderGet(resp.header, "Content-Type")) ==>
      && r.delivery.Pushed?
      && r.delivery.packet.http.body == DecodeBody(HeaderGet(resp.header, "Content-Encoding"), resp.body.readable, codecs)
      && r.bodyRead
    // pushed onto the queue exactly when not gated
    ensures r.delivery.Pushed? <==>
      resp.contentLength == 0 || !IsBinary(HeaderGet(resp.header, "Content-Type"))
  {
    var contentType := HeaderGet(resp.header, "Content-Type");
    var h := ZeroHTTP().(
      httpPacketType := HTTPPacketTypeResponse,
      date := now,
      proto := resp.proto,
      protoMajor := resp.protoMajor,
      protoMinor := resp.protoMinor,
      httpMethod := resp.request.httpMethod,
      host := resp.request.host,
      path := resp.request.path,
      url := resp.request.url,
      header := resp.header,
      status := resp.status,
      statusCode := resp.statusCode,
      contentType := contentType,
      contentLength := resp.contentLength);
    if h.contentLength == 0 then
      ResponseOutcome(Pushed(Packet(PacketTypeHTTP, h.(body := NoData), ZeroIP())), resp, false)
    else if IsBinary(contentType) then
      ResponseOutcome(Emitted("Packet", Packet(PacketTypeHTTP, h.(body := BinaryData + contentType), ZeroIP())), resp, false)
    else
      var encoding := HeaderGet(resp.header, "Content-Encoding");
      var body := DecodeBody(encoding, resp.body.readable, codecs);
      ResponseOutcome(Pushed(Packet(PacketTypeHTTP, h.(body := body), ZeroIP())), resp.(body := Restored(resp.body)), true)
  }
}

=== FILE: seqs.dfy ===
/** Reference definitions over sequences, used to state what the
    dispatcher and the capture producer emit, and in which order. */
module Seqs {

  /** The elements of `s` that satisfy `keep`, in their original order. */
  function Filter<T>(keep: T -> bool, s: seq<T>): (r: seq<T>)
    ensures |r| <= |s|
    ensures forall x :: x in r ==> x in s && keep(x)
  {
    if s == [] then []
    else (if keep(s[0]) then [s[0]] else []) + Filter(keep, s[1..])
  }

  /** `f` applied to every element of `s`, in order. */
  function Map<T, U>(f: T -> U, s: seq<T>): (r: seq<U>)
    ensures |r| == |s|
    ensures forall i :: 0 <= i < |s| ==> r[i] == f(s[i])
  {
    if s == [] then [] else [f(s[0])] + Map(f, s[1..])
  }

  /** The concatenation of all the pieces of `s`, in order. */
  function Flatten<T>(s: seq<seq<T>>): seq<T> {
    if s == [] then [] else s[0] + Flatten(s[1..])
  }

  /** Filtering a concatenation filters each part and keeps them in order. */
  lemma {:induction false} FilterAppend<T>(keep: T -> bool, a: seq<T>, b: seq<T>)
    ensures Filter(keep, a + b) == Filter(keep, a) + Filter(keep, b)
  {
    if a == [] {
      assert a + b == b;
    } else {
      assert (a + b)[1..] == a[1..] + b;
      FilterAppend(keep, a[1..], b);
    }
  }

  /** When nothing is rejected, filtering changes nothing. */
  lemma {:induction false} FilterAll<T>(keep: T -> bool, s: seq<T>)
    requires forall i :: 0 <= i < |s| ==> keep(s[i])
    ensures Filter(keep, s) == s
  {
    if s != [] {
      FilterAll(keep, s[1..]);
    }
  }

  /** Flattening a concatenation flattens each part and keeps them in order. */
  lemma {:induction false} FlattenAppend<T>(a: seq<seq<T>>, b: seq<seq<T>>)
    ensures Flatten(a + b) == Flatten(a) + Flatten(b)
  {
    if a == [] {
      assert a + b == b;
    } else {
      assert (a + b)[1..] == a[1..] + b;
      FlattenAppend(a[1..], b);
    }
  }

  /** Mapping a concatenation maps each part and keeps them in order. */
  lemma {:induction false} MapAppend<T, U>(f: T -> U, a: seq<T>, b: seq<T>)
    ensures Map(f, a + b) == Map(f, a) + Map(f, b)
  {
    if a == [] {
      assert a + b == b;
    } else {
      assert (a + b)[1..] == a[1..] + b;
      MapAppend(f, a[1..], b);
    }
  }
}

=== FILE: wrappers.dfy ===
/** Optional values and fallible results, used wherever the program has a
    nil pointer or an `error` return. */
module Wrappers {

  /** A value that may be absent (a nil pointer in the program). */
  datatype Option<+T> = None | Some(value: T) {

    /** The carried value, or `default` when there is none. */
    function GetOr(default: T): T {
      match this
      case Some(v) => v
      case None => default
    }
  }

  /** The outcome of a call into code the model cannot see: a value, or the
      text of the `error` it returned (`err.Error()`). */
  datatype Result<+T> = Ok(value: T) | Err(message: string)
}
